=== FILE: README.md ===
# MyBluetooth core, modelled in Dafny

MyBluetooth is an iOS app. It scans for Bluetooth Low Energy peripherals and
lists them strongest signal first. For each one it shows a proximity bucket
and a display name. The user can bookmark peripherals by name under "My
Devices". This project models the app's logic as pure Dafny functions and
methods, and proves the properties the code promises:

- `BluetoothManager` (`manager.dfy`): the manager's three published tables,
  with the platform callbacks written as state transitions. It also holds
  `estimateDistance` and `readableName`, and a fold over event traces.
- `ManufacturerDatabase` (`manufacturer.dfy`): builds the vendor table from
  the decoded JSON object and answers lookups.
- `SavedDevices` (`saved_device.dfy`): the `SavedDevice` record and its one
  mutator.
- `Scanner` (`scanner.dfy`): the signal-ordered snapshot, the 10-second
  refresh throttle, the bookmarked/other split, and the "Add to My Devices"
  action.
- `DeviceDetail` (`detail.dfy`): hex rendering of `Data` values, the
  company-ID decode and its formatting, the key order of the advertisement
  listing, and the connection-state names.
- Helper modules:
  - `Hex` (`hex.dfy`): Swift's `UInt16(_:radix: 16)` parser, the `%02X` and
    `%04X` formats, and the little-endian byte join.
  - `Text` (`text.dfy`): ASCII case folding, substring search and
    lexicographic order.
  - `Wrappers` (`wrappers.dfy`): `Option`.
  - `Clock` (`clock.dfy`): time as a plain number of milliseconds.

The vendor table is a value. It is built once by `BuildCompanies`, and the
only operation on it, `Name`, is a pure lookup, so no lookup can change it.

The clock is always a parameter. A time is an integer count of milliseconds.
Swift's unordered dictionary iteration becomes a nondeterministic choice
(`:|`) inside a method. The contracts therefore hold for every iteration
order.

Some facts about the code that shape the model:

- There are three distance buckets: `Near`, `Moderate` and `Far (>5m)`.
- `readableName` knows three hard-coded company codes: Apple, Samsung and
  Google. It does not consult the vendor table.
- An advertised local name takes precedence over the peripheral's raw name.
- Bookmarks (`myDevices`) are keyed by the peripheral's self-reported name
  (`CBPeripheral.name`). Each bookmark holds a list of sighting times.

## Model

| member | source | states |
|---|---|---|
| BluetoothManager.EstimateDistance | MyBluetooth/BluetoothManager.swift:35-42 | The result is "Near (~1–2m)" exactly when -60 ≤ rssi ≤ 0, both ends included. It is "Moderate (~2–5m)" exactly when -70 ≤ rssi < -60. It is "Far (>5m)" exactly for every other value, positive values and values below -70 included. |
| BluetoothManager.ManufacturerCode | MyBluetooth/BluetoothManager.swift:48-50 | The shift-and-or of the first two bytes equals bytes[0] + 256·bytes[1]: the company identifier read little-endian. |
| BluetoothManager.RawNameLabel | MyBluetooth/BluetoothManager.swift:63-65 | The raw-name rule never yields an empty string. |
| BluetoothManager.ReadableName | MyBluetooth/BluetoothManager.swift:44-66 | The display name is never empty, for every combination of raw name and advertisement. |
| BluetoothManager.VendorCodeWins | MyBluetooth/BluetoothManager.swift:45-56 | Manufacturer bytes starting 4C 00, 75 00 or E0 00 give "Apple Device", "Samsung Device" or "Google Device". This holds whatever the local name and the raw name are. |
| BluetoothManager.UnrecognisedCodeFallsThrough | MyBluetooth/BluetoothManager.swift:49-55 | Manufacturer data shorter than two bytes, or with any other code, decides nothing. |
| BluetoothManager.LocalNameBeatsRawName | MyBluetooth/BluetoothManager.swift:59-61 | When no vendor code decides, a non-empty advertised local name is returned verbatim, and the raw name is ignored. |
| BluetoothManager.RawNameRules | MyBluetooth/BluetoothManager.swift:63-65 | When the advertisement decides nothing: a missing or empty raw name gives "Unknown Device". A raw name containing "airtag" in any ASCII case gives "Apple AirTag". Any other raw name is returned verbatim. |
| BluetoothManager.Discover | MyBluetooth/BluetoothManager.swift:25-33 | A discovery upserts the peripheral's RSSI and advertisement and leaves every other peripheral's entries alone. The set of bookmarked names never changes. Exactly one timestamp is appended, and only to the peripheral's own name when that name is bookmarked. Every other history is unchanged. |
| BluetoothManager.DidUpdateState | MyBluetooth/BluetoothManager.swift:15-23 | A scan is requested exactly when the radio is powered on, and then nothing changes. Any other state empties `discoveredDevices`. The advertisement table and the bookmarks are never touched. |
| BluetoothManager.AddMyDevice | MyBluetooth/BluetoothManager.swift:68-72 | The name becomes bookmarked. A new name gets an empty history. An existing name leaves the whole state unchanged. Other names' histories and the live tables are untouched. |
| BluetoothManager.RemoveMyDevice | MyBluetooth/BluetoothManager.swift:74-76 | Exactly that name is removed, and the rest is unchanged. Removing an absent name is a no-op. |
| BluetoothManager.AddMyDeviceIdempotent | MyBluetooth/BluetoothManager.swift:68-72 | Bookmarking a name twice is the same as bookmarking it once. |
| BluetoothManager.AddThenRemove | MyBluetooth/BluetoothManager.swift:68-76 | Bookmarking a new name and then removing it restores the original state. |
| BluetoothManager.RunKeepsConsistent | MyBluetooth/BluetoothManager.swift:15-33 | In every event trace, each peripheral with an RSSI also has an advertisement entry. Power-off clears only the RSSI table, so the invariant survives it. |
| BluetoothManager.OnlyBookmarkingChangesNames | MyBluetooth/BluetoothManager.swift:25-33 | A trace of discoveries and radio-state changes never adds or removes a bookmarked name. |
| BluetoothManager.HistoriesOnlyGrow | MyBluetooth/BluetoothManager.swift:29-31 | Without an unbookmark event, every bookmarked name's sighting list is a prefix of its later list. |
| ManufacturerDatabase.BuildCompanies | MyBluetooth/ManufacturerDatabase.swift:8-22 | A missing or malformed resource gives an empty table. Every kept entry comes from a source key that parses as a base-16 `UInt16` to that id, and carries exactly that key's vendor string. Every parsable key is kept. The table has no more entries than the source. |
| ManufacturerDatabase.Name | MyBluetooth/ManufacturerDatabase.swift:24-26 | A lookup returns the stored vendor string for a present id, and nil otherwise. |
| ManufacturerDatabase.CanonicalKeyParses | MyBluetooth/ManufacturerDatabase.swift:16-18 | A key written as four upper-case hex digits parses to the id it spells, so `BuildCompanies` keeps it under that id. |
| Hex.ParseMatchesReference | MyBluetooth/ManufacturerDatabase.swift:17 | The digit-by-digit parser with per-step overflow checks agrees with a whole-string reading on every input. The whole-string reading is: an optional sign, then a non-empty run of hex digits of either case with value at most 0xFFFF. After a minus sign only zero is accepted. Everything else is rejected. |
| Hex.JoinHighFirst | MyBluetooth/BluetoothManager.swift:50 | The 16-bit shift-and-or with the high byte written first equals lo + 256·hi. |
| Hex.JoinLowFirst | MyBluetooth/Views/DeviceDetailView.swift:28 | The 16-bit or-and-shift with the low byte written first equals lo + 256·hi. |
| Hex.Format02X | MyBluetooth/Views/DeviceDetailView.swift:21 | `%02X` gives two upper-case hex digits whose positional value is the byte. |
| Hex.Format04X | MyBluetooth/Views/DeviceDetailView.swift:30 | `%04X` gives exactly four upper-case hex digits whose positional value is the number. |
| Hex.ParseFormat02X | MyBluetooth/Views/DeviceDetailView.swift:21 | Parsing a `%02X` rendering as base 16 gives the byte back. |
| Hex.ParseFormat04X | MyBluetooth/Views/DeviceDetailView.swift:30 | Parsing a `%04X` rendering as base 16 gives the number back. |
| Text.Lowercased | MyBluetooth/BluetoothManager.swift:64 | Lower-casing keeps the length, folds each character separately, and leaves no upper-case ASCII letter. |
| Text.ContainsIff | MyBluetooth/BluetoothManager.swift:64 | The front-to-back substring scan succeeds exactly when the pattern occurs at some position. |
| Text.LexLessIrreflexive | MyBluetooth/Views/DeviceDetailView.swift:19 | No key sorts before itself. |
| Text.LexLessTransitive | MyBluetooth/Views/DeviceDetailView.swift:19 | The key order is transitive. |
| Text.LexLessTotal | MyBluetooth/Views/DeviceDetailView.swift:19 | Of two distinct keys, one sorts before the other. |
| SavedDevices.NewSavedDevice | MyBluetooth/Models/Item.swift:10-15 | A new record stores `id` and `name` verbatim. `addedDate` is the construction time, and `lastSeenDate` is nil. |
| SavedDevices.UpdateLastSeen | MyBluetooth/Models/Item.swift:17-19 | After the update, `lastSeenDate` is the current time. `id`, `name` and `addedDate` are unchanged. |
| SavedDevices.UpdatedAt | MyBluetooth/Models/Item.swift:4-20 | After any series of updates, `id`, `name` and `addedDate` are as constructed. `lastSeenDate` is the last update's time, or unchanged when there was no update. |
| Scanner.Entries | MyBluetooth/Views/ScannerView.swift:12 | Listing the dictionary yields each (peripheral, rssi) entry exactly once, in whatever order iteration chooses. |
| Scanner.Insert | MyBluetooth/Views/ScannerView.swift:13 | Inserting into a list in non-increasing RSSI order keeps it in that order and adds exactly that entry. |
| Scanner.SortByRssi | MyBluetooth/Views/ScannerView.swift:13 | The sort result is a permutation (same multiset) in non-increasing RSSI order. The order among equal RSSI values is not fixed. |
| Scanner.SortKeepsEntries | MyBluetooth/Views/ScannerView.swift:12-13 | Sorting a listing of the live table still lists every entry of the table exactly once. |
| Scanner.UpdateSortedDevices | MyBluetooth/Views/ScannerView.swift:11-15 | `sortedDevices` is exactly the entries of `discoveredDevices`, each once, strongest signal first. `lastUpdate` is the current time. |
| Scanner.OnDevicesChanged | MyBluetooth/Views/ScannerView.swift:83-87 | A change re-sorts only if strictly more than 10 s have passed since `lastUpdate`, and the re-sort resets `lastUpdate`; either way the new `lastUpdate` is the throttle step `NextLastUpdate` that `ThrottleSpacing` folds. The new snapshot lists the table as it was before the triggering write, sorted. Otherwise the snapshot and its time are untouched. |
| Scanner.ThrottleSpacing | MyBluetooth/Views/ScannerView.swift:83-86 | Over any run of changes, each re-sort happens at one of the changes, the first comes more than 10 000 ms after the starting snapshot, successive re-sorts are more than 10 000 ms apart, and the final `lastUpdate` is the last re-sort time (or the start if there was none). |
| Scanner.QuietWithinWindow | MyBluetooth/Views/ScannerView.swift:83-86 | Changes that all come within 10 000 ms of the snapshot never re-sort and leave `lastUpdate` unchanged. |
| Scanner.NewestSightingNotYetShown | MyBluetooth/Views/ScannerView.swift:83-86 | When the write that triggers a refresh adds a new peripheral, the snapshot (taken from the table before the write) does not list it, while the manager's table afterwards does, one entry larger. |
| Scanner.MyFiltered | MyBluetooth/Views/ScannerView.swift:23-26 | An entry is in `myFiltered` exactly when it is in `sortedDevices` and its peripheral has a name that is bookmarked. |
| Scanner.OtherFiltered | MyBluetooth/Views/ScannerView.swift:45-48 | An entry is in `otherFiltered` exactly when it is in `sortedDevices` and its peripheral is unnamed or its name is not bookmarked. |
| Scanner.MySection | MyBluetooth/Views/ScannerView.swift:22-28 | The "My Devices Nearby" section exists exactly when some name is bookmarked. |
| Scanner.FiltersPartition | MyBluetooth/Views/ScannerView.swift:22-48 | The two sections together hold every row of `sortedDevices`, each exactly as often as it occurs there. |
| Scanner.FiltersKeepOrder | MyBluetooth/Views/ScannerView.swift:23-48 | Each section is a subsequence of `sortedDevices`: rows keep their relative order. |
| Scanner.FiltersStaySorted | MyBluetooth/Views/ScannerView.swift:23-48 | When `sortedDevices` is strongest first, both sections are too. |
| Scanner.NothingBookmarked | MyBluetooth/Views/ScannerView.swift:22-48 | With no bookmarks there is no "My Devices Nearby" section, and `otherFiltered` is all of `sortedDevices`. |
| Scanner.AddToMyDevices | MyBluetooth/Views/ScannerView.swift:69-74 | "Add to My Devices" bookmarks the peripheral's name. It changes nothing for an unnamed peripheral. It keeps every existing history and the live tables. |
| DeviceDetail.Joined | MyBluetooth/Views/DeviceDetailView.swift:21 | Joining byte renderings gives the empty string exactly for no bytes. |
| DeviceDetail.JoinedLength | MyBluetooth/Views/DeviceDetailView.swift:21-29 | The joined rendering has two characters per byte plus one separator between neighbours. |
| DeviceDetail.JoinedLayout | MyBluetooth/Views/DeviceDetailView.swift:21 | Byte i sits at offset i·(2+|sep|) as its two `%02X` digits, followed by the separator unless it is the last byte. |
| DeviceDetail.HexDumpLayout | MyBluetooth/Views/DeviceDetailView.swift:21 | In the `[DEBUG]` dump, byte i sits at offset 3·i as its two upper-case `%02X` digits. A single space follows unless it is the last byte. |
| DeviceDetail.FullLittleELayout | MyBluetooth/Views/DeviceDetailView.swift:29-31 | In the "Full Little-E" string, byte i sits at offset 2·i, with no separator and no reversal. Its two digits parse back to that byte. |
| DeviceDetail.SameBytesBothRenderings | MyBluetooth/Views/DeviceDetailView.swift:21-31 | The spaced dump and the "Full Little-E" string show byte i as the same two digits. |
| DeviceDetail.CompanyIdLE | MyBluetooth/Views/DeviceDetailView.swift:28 | The decoded company ID is bytes[0] + 256·bytes[1]. |
| DeviceDetail.SameDecodeAsResolver | MyBluetooth/Views/DeviceDetailView.swift:27-28 | The detail screen's decode gives the same value as the name resolver's decode. |
| DeviceDetail.EntryLines | MyBluetooth/Views/DeviceDetailView.swift:20-35 | Every entry shows a `[DEBUG]` line: the hex dump in brackets for `Data`, the description followed by " (type: …)" with the value's type name otherwise. There are three lines for manufacturer data of at least 2 bytes, and exactly one line for every other entry. They show "0x" plus `%04X` of the ID, and the run-together hex string. |
| DeviceDetail.CompanyIdLineDigits | MyBluetooth/Views/DeviceDetailView.swift:27-30 | The company-ID line ends in exactly four upper-case hex digits, and they parse back to bytes[0] + 256·bytes[1]. |
| DeviceDetail.SortedKeys | MyBluetooth/Views/DeviceDetailView.swift:19 | The advertisement keys are listed each exactly once, in strictly ascending order. |
| DeviceDetail.DetailLines | MyBluetooth/Views/DeviceDetailView.swift:18-37 | The listing shows one group of lines per advertisement entry, in ascending key order. |
| DeviceDetail.StateDescription | MyBluetooth/Views/DeviceDetailView.swift:45-55 | The description is "Unknown" exactly for a state outside the four known ones, that is, a raw value other than 0 to 3. |
| DeviceDetail.StateDescriptionsDistinct | MyBluetooth/Views/DeviceDetailView.swift:46-53 | The four known states print four different names. |

## Left out

- CoreBluetooth plumbing is not modelled: creating the central manager,
  the scan options, and the hops to the main queue. Callbacks are applied
  one at a time, in delivery order. A `CBPeripheral` is the value
  (identifier, name); a handle whose name changes counts as a different key.
- RSSI is modelled as an integer. The source compares `doubleValue` and
  sorts on `intValue`, so fractional values are not modelled.
- A `TimeInterval` is modelled as a whole number of milliseconds.
  Sub-millisecond differences in the 10-second throttle are lost.
- Reading the bundled JSON file is not modelled. `BuildCompanies` takes the
  already-decoded object, or `None` when the file is missing, unreadable or
  not a string-to-string object.
- BuildCompanies: when two keys parse to the same id (such as "4C" and
  "004C"), the contract does not say which vendor string remains. Swift's
  dictionary iteration order decides, and the source does not fix it.
- `String.lowercased()` and `String.<` are Unicode-aware in Swift. The model
  folds ASCII case only, and compares keys by code point.
- Strings in the model are sequences of code points. Swift's `String ==`,
  dictionary keys (the bookmarks in `myDevices`, the advertisement keys) and
  `contains` compare by canonical equivalence and grapheme cluster. The
  model's `==`, map keys and `Text.Contains` do not. So a precomposed "é"
  and "e" followed by a combining accent are two bookmark names here. Also,
  "airtag" followed by a combining mark counts as containing "airtag".
- DeviceDetail.Describe: for a value that is not `Data`, the text that
  Foundation's `String(describing:)` prints and the name `type(of:)` gives
  are carried in the value as given. The model does not derive either from
  the value's runtime type.
- Scanner.OnDevicesChanged: `@Published` publishes from `willSet`, so the
  table the refresh reads is the one from before the triggering write. The
  model takes that earlier table as its parameter. It does not model the
  later write, which only shows up at the next refresh.
- The header lines of the detail screen are not modelled: "Name:",
  "Identifier:", "RSSI:", "State:" and the navigation title. The same goes
  for the "Devices found: N" caption, which only prints a count.
- MyDevicesView, DeviceRow, ContentView and the app entry point are layout
  only and are not modelled. DeviceRow just forwards to `readableName` and
  `estimateDistance`.
- The views call `savedDevices`, `currentlyDiscoveredDevice(for:)` and
  `isDeviceSaved`. The manager does not define them, so they have no
  modelled meaning.
- The `Codable` encoding of `SavedDevice` is not modelled, because
  Foundation does that encoding.

=== FILE: clock.dfy ===
/** Wall-clock instants. `Date()` is never read by the model: the current
    time is always passed in as a parameter. */
module Clock {

  /** An instant, in whole milliseconds on an arbitrary epoch. */
  type Time = int

  /** Milliseconds in one second. */
  const MillisPerSecond: int := 1000
}

=== FILE: detail.dfy ===
/** The device detail screen's computations: hex rendering of `Data`
    values, the decoded company identifier, the key order of the
    advertisement listing, and the connection-state names. */
module DeviceDetail {
  import opened Wrappers
  import opened Hex
  import Text
  import BM = BluetoothManager

  /** `data.map { String(format: "%02X", $0) }.joined(separator: sep)` */
  function Joined(bytes: seq<uint8>, sep: string): (s: string)
    ensures |bytes| == 0 <==> s == []
    ensures |bytes| > 0 ==> |s| >= 2
    decreases |bytes|
  {
    if |bytes| == 0 then []
    else if |bytes| == 1 then Format02X(bytes[0])
    else Format02X(bytes[0]) + sep + Joined(bytes[1..], sep)
  }

  /** The `[DEBUG]` rendering: byte pairs separated by single spaces. */
  function HexDump(bytes: seq<uint8>): string
  {
    Joined(bytes, " ")
  }

  /** The "Full Little-E" rendering: byte pairs run together. */
  function FullLittleE(bytes: seq<uint8>): string
  {
    Joined(bytes, "")
  }

  lemma SliceOfConcat(a: string, b: string, lo: int, hi: int)
    requires |a| <= lo <= hi <= |a| + |b|
    ensures (a + b)[lo..hi] == b[lo - |a|..hi - |a|]
  {
  }

  /** Where byte `i` starts when every byte takes `w` characters. */
  function Offset(i: nat, w: nat): nat
  {
    if i == 0 then 0 else w + Offset(i - 1, w)
  }

  lemma {:induction false} OffsetIsProduct(i: nat, w: nat)
    ensures Offset(i, w) == i * w
  {
    if i > 0 {
      OffsetIsProduct(i - 1, w);
    }
  }

  /** The first byte is printed first, followed by the separator unless it
      is the only byte. */
  lemma JoinedHead(bytes: seq<uint8>, sep: string)
    requires |bytes| > 0
    ensures var s := Joined(bytes, sep);
            && 2 <= |s| && s[..2] == Format02X(bytes[0])
            && (1 < |bytes| ==> 2 + |sep| <= |s| && s[2..2 + |sep|] == sep)
  {
    if |bytes| > 1 {
      var head := Format02X(bytes[0]) + sep;
      assert Joined(bytes, sep) == head + Joined(bytes[1..], sep);
      assert head[..2] == Format02X(bytes[0]);
      assert head[2..2 + |sep|] == sep;
    }
  }

  /** Byte `i` is printed at offset `i * (2 + |sep|)` as its two `%02X`
      digits, followed by the separator unless it is the last byte. */
  lemma {:induction false} JoinedLayout(bytes: seq<uint8>, sep: string, i: nat)
    requires i < |bytes|
    ensures var s := Joined(bytes, sep);
            var at := Offset(i, 2 + |sep|);
            && at + 2 <= |s|
            && s[at..at + 2] == Format02X(bytes[i])
            && (i + 1 < |bytes| ==> at + 2 + |sep| <= |s| && s[at + 2..at + 2 + |sep|] == sep)
    decreases i
  {
    if i == 0 {
      JoinedHead(bytes, sep);
    } else {
      var head := Format02X(bytes[0]) + sep;
      var tail := Joined(bytes[1..], sep);
      assert Joined(bytes, sep) == head + tail;
      JoinedLayout(bytes[1..], sep, i - 1);
      var w := |head|;
      var at := Offset(i - 1, w);
      assert bytes[1..][i - 1] == bytes[i];
      SliceOfConcat(head, tail, w + at, w + at + 2);
      if i + 1 < |bytes| {
        SliceOfConcat(head, tail, w + at + 2, w + at + 2 + |sep|);
      }
    }
  }

  /** The spaced dump is three characters per byte less the trailing
      separator; the run-together string is exactly two per byte. */
  lemma {:induction false} JoinedLength(bytes: seq<uint8>, sep: string)
    requires |bytes| > 0
    ensures |Joined(bytes, sep)| == 2 * |bytes| + |sep| * (|bytes| - 1)
    decreases |bytes|
  {
    if |bytes| > 1 {
      JoinedLength(bytes[1..], sep);
    }
  }

  /** The `[DEBUG]` dump: byte `i` at offset `3 * i`, then a single space
      unless it is the last byte. */
  lemma HexDumpLayout(bytes: seq<uint8>, i: nat)
    requires i < |bytes|
    ensures 3 * i + 2 <= |HexDump(bytes)|
    ensures HexDump(bytes)[3 * i..3 * i + 2] == Format02X(bytes[i])
    ensures i + 1 < |bytes| ==> 3 * i + 3 <= |HexDump(bytes)| && HexDump(bytes)[3 * i + 2] == ' '
  {
    JoinedLayout(bytes, " ", i);
    OffsetIsProduct(i, 3);
    var s := HexDump(bytes);
    if i + 1 < |bytes| {
      assert s[3 * i + 2..3 * i + 3] == " ";
    }
  }

  /** The "Full Little-E" string: byte `i` at offset `2 * i`, in the original
      byte order, reading back as that byte. */
  lemma FullLittleELayout(bytes: seq<uint8>, i: nat)
    requires i < |bytes|
    ensures 2 * i + 2 <= |FullLittleE(bytes)|
    ensures FullLittleE(bytes)[2 * i..2 * i + 2] == Format02X(bytes[i])
    ensures ParseUInt16Hex(FullLittleE(bytes)[2 * i..2 * i + 2]) == Some(bytes[i] as int)
  {
    JoinedLayout(bytes, "", i);
    OffsetIsProduct(i, 2);
    ParseFormat02X(bytes[i]);
  }

  /** The spaced dump and the "Full Little-E" string print the same bytes in
      the same order; the latter reverses nothing. */
  lemma SameBytesBothRenderings(bytes: seq<uint8>, i: nat)
    requires i < |bytes|
    ensures 3 * i + 2 <= |HexDump(bytes)| && 2 * i + 2 <= |FullLittleE(bytes)|
    ensures HexDump(bytes)[3 * i..3 * i + 2] == FullLittleE(bytes)[2 * i..2 * i + 2]
  {
    HexDumpLayout(bytes, i);
    FullLittleELayout(bytes, i);
  }

  /** `UInt16(bytes[0]) | UInt16(bytes[1]) << 8` */
  function CompanyIdLE(bytes: seq<uint8>): (id: uint16)
    requires |bytes| >= 2
    ensures id == bytes[0] as int + 0x100 * bytes[1] as int
  {
    var lo: uint8 := bytes[0];
    var hi: uint8 := bytes[1];
    JoinLowFirst(hi, lo);
    ((lo as bv16) | ((hi as bv16) << 8)) as int
  }

  /** The detail screen decodes the same identifier as the name resolver. */
  lemma SameDecodeAsResolver(bytes: seq<uint8>)
    requires |bytes| >= 2
    ensures CompanyIdLE(bytes) == BM.ManufacturerCode(bytes)
  {
  }

  const CompanyIdPrefix: string := "  \U{2022} Company ID (LE): 0x"
  const FullLittleEPrefix: string := "  \U{2022} Full Little-E: "

  /** `String(describing: value)` for a value that is not `Data`: a string
      prints as itself. */
  function Describe(v: BM.AdvValue): string
    requires !v.DataValue?
  {
    match v
    case StringValue(t, _) => t
    case OtherValue(d, _) => d
  }

  /** The `[DEBUG]` line of a value that is not `Data`. */
  function DescribedLine(key: string, v: BM.AdvValue): string
    requires !v.DataValue?
  {
    "[DEBUG] " + key + ": " + Describe(v) + " (type: " + v.typeName + ")"
  }

  /** The lines shown for one advertisement entry. */
  function EntryLines(key: string, value: BM.AdvValue): (lines: seq<string>)
    ensures |lines| >= 1
    ensures lines[0] == (if value.DataValue? then "[DEBUG] " + key + ": [" + HexDump(value.bytes) + "]"
                         else DescribedLine(key, value))
    ensures |lines| == (if value.DataValue? && key == BM.ManufacturerDataKey && |value.bytes| >= 2 then 3 else 1)
    ensures |lines| == 3 ==>
              && lines[1] == CompanyIdPrefix + Format04X(CompanyIdLE(value.bytes))
              && lines[2] == FullLittleEPrefix + FullLittleE(value.bytes)
  {
    match value
    case DataValue(bytes) =>
      var dump := ["[DEBUG] " + key + ": [" + HexDump(bytes) + "]"];
      if key == BM.ManufacturerDataKey && |bytes| >= 2 then
        dump + [CompanyIdPrefix + Format04X(CompanyIdLE(bytes)), FullLittleEPrefix + FullLittleE(bytes)]
      else dump
    case _ => [DescribedLine(key, value)]
  }

  /** The company-ID line ends in exactly four upper-case digits that parse
      back to `bytes[0] + 256 * bytes[1]`. */
  lemma CompanyIdLineDigits(bytes: seq<uint8>)
    requires |bytes| >= 2
    ensures var line := EntryLines(BM.ManufacturerDataKey, BM.DataValue(bytes))[1];
            && |line| == |CompanyIdPrefix| + 4
            && line[..|CompanyIdPrefix|] == CompanyIdPrefix
            && (forall i :: |CompanyIdPrefix| <= i < |line| ==> IsUpperHexDigit(line[i]))
            && ParseUInt16Hex(line[|CompanyIdPrefix|..]) == Some(bytes[0] as int + 0x100 * bytes[1] as int)
  {
    var line := EntryLines(BM.ManufacturerDataKey, BM.DataValue(bytes))[1];
    assert line[|CompanyIdPrefix|..] == Format04X(CompanyIdLE(bytes));
    forall i | |CompanyIdPrefix| <= i < |line|
      ensures IsUpperHexDigit(line[i])
    {
      assert line[i] == Format04X(CompanyIdLE(bytes))[i - |CompanyIdPrefix|];
    }
    ParseFormat04X(CompanyIdLE(bytes));
  }

  // ---------------------------------------------------------------------------
  // Key order

  /** The least key of a non-empty set. */
  method LeastKey(keys: set<string>) returns (k: string)
    requires keys != {}
    ensures k in keys
    ensures forall x :: x in keys && x != k ==> Text.LexLess(k, x)
  {
    k :| k in keys;
    var rest := keys - {k};
    while rest != {}
      invariant rest <= keys && k in keys && k !in rest
      invariant forall x :: x in keys && x !in rest && x != k ==> Text.LexLess(k, x)
      decreases rest
    {
      var x :| x in rest;
      if Text.LexLess(x, k) {
        forall y | y in keys && y !in rest && y != x
          ensures Text.LexLess(x, y)
        {
          if y != k {
            Text.LexLessTransitive(x, k, y);
          }
        }
        k := x;
      } else {
        Text.LexLessTotal(k, x);
      }
      rest := rest - {x};
    }
  }

  /** `adv.sorted(by: { $0.key < $1.key })`: every key once, ascending. */
  method SortedKeys(adv: BM.AdvData) returns (keys: seq<string>)
    ensures forall k :: k in keys <==> k in adv
    ensures forall i, j :: 0 <= i < j < |keys| ==> Text.LexLess(keys[i], keys[j])
  {
    keys := [];
    var rest := adv.Keys;
    while rest != {}
      invariant rest <= adv.Keys
      invariant forall k :: k in keys <==> k in adv && k !in rest
      invariant forall i, j :: 0 <= i < j < |keys| ==> Text.LexLess(keys[i], keys[j])
      invariant forall i, x :: 0 <= i < |keys| && x in rest ==> Text.LexLess(keys[i], x)
      decreases rest
    {
      var k := LeastKey(rest);
      forall i, x | 0 <= i < |keys| && x in rest - {k}
        ensures Text.LexLess(keys[i], x)
      {
      }
      keys := keys + [k];
      rest := rest - {k};
    }
  }

  /** The listing: each entry's lines, in ascending key order. */
  method DetailLines(adv: BM.AdvData) returns (keys: seq<string>, lines: seq<seq<string>>)
    ensures forall k :: k in keys <==> k in adv
    ensures forall i, j :: 0 <= i < j < |keys| ==> Text.LexLess(keys[i], keys[j])
    ensures |lines| == |keys|
    ensures forall i :: 0 <= i < |keys| ==> keys[i] in adv && lines[i] == EntryLines(keys[i], adv[keys[i]])
  {
    keys := SortedKeys(adv);
    lines := seq(|keys|, i requires 0 <= i < |keys| => EntryLines(keys[i], adv[keys[i]]));
  }

  // ---------------------------------------------------------------------------
  // Connection state

  /** A raw value that none of the four known states uses (they use 0 to 3). */
  type UnknownRawValue = x: int | x < 0 || x > 3 witness 4

  /** `CBPeripheralState`, with a case for raw values added by later SDKs. */
  datatype PeripheralState = Disconnected | Connecting | Connected | Disconnecting | Unrecognised(rawValue: UnknownRawValue)

  /** `CBPeripheralState.description` */
  function StateDescription(state: PeripheralState): (text: string)
    ensures text == "Unknown" <==> state.Unrecognised?
  {
    match state
    case Disconnected => "Disconnected"
    case Connecting => "Connecting"
    case Connected => "Connected"
    case Disconnecting => "Disconnecting"
    case Unrecognised(_) => "Unknown"
  }

  /** The four known states print four different names. */
  lemma StateDescriptionsDistinct(a: PeripheralState, b: PeripheralState)
    requires !a.Unrecognised? && !b.Unrecognised? && a != b
    ensures StateDescription(a) != StateDescription(b)
  {
  }
}

=== FILE: hex.dfy ===
/** Fixed-width unsigned integers, hexadecimal digits, Swift's
    `UInt16(_:radix: 16)` parser and the `%02X` / `%04X` formats. */
module Hex {
  import opened Wrappers

  /** Swift `UInt8`. */
  type uint8 = x: int | 0 <= x < 0x100

  /** Swift `UInt16`. */
  type uint16 = x: int | 0 <= x < 0x1_0000

  // Facts for reading two bytes as a 16-bit value with shifts and masks.

  lemma ByteAsBv16(b: uint8)
    ensures (b as bv16) as int == b && b as bv16 < 0x100
  {
  }

  lemma ShiftOrIsSum(hi: bv16, lo: bv16)
    requires hi < 0x100 && lo < 0x100
    ensures (hi << 8) | lo == hi * 0x100 + lo
    ensures lo | (hi << 8) == hi * 0x100 + lo
  {
  }

  lemma SumAsInt(hi: bv16, lo: bv16)
    requires hi < 0x100 && lo < 0x100
    ensures (hi * 0x100 + lo) as int == hi as int * 0x100 + lo as int
  {
  }

  /** `hi << 8 | lo` on 16-bit values is `lo + 256 * hi`. */
  lemma JoinHighFirst(hi: uint8, lo: uint8)
    ensures (((hi as bv16) << 8) | (lo as bv16)) as int == lo + 0x100 * hi
  {
    ByteAsBv16(hi);
    ByteAsBv16(lo);
    ShiftOrIsSum(hi as bv16, lo as bv16);
    SumAsInt(hi as bv16, lo as bv16);
  }

  /** `lo | hi << 8` on 16-bit values is `lo + 256 * hi`. */
  lemma JoinLowFirst(hi: uint8, lo: uint8)
    ensures ((lo as bv16) | ((hi as bv16) << 8)) as int == lo + 0x100 * hi
  {
    ByteAsBv16(hi);
    ByteAsBv16(lo);
    ShiftOrIsSum(hi as bv16, lo as bv16);
    SumAsInt(hi as bv16, lo as bv16);
  }

  predicate IsHexDigit(c: char)
  {
    '0' <= c <= '9' || 'a' <= c <= 'f' || 'A' <= c <= 'F'
  }

  /** A digit as `%X` prints it: `0`-`9` or an upper-case `A`-`F`. */
  predicate IsUpperHexDigit(c: char)
  {
    '0' <= c <= '9' || 'A' <= c <= 'F'
  }

  predicate AllHexDigits(s: string)
  {
    forall i :: 0 <= i < |s| ==> IsHexDigit(s[i])
  }

  /** The value of one hexadecimal digit; letters are accepted in either case. */
  function DigitValue(c: char): (d: nat)
    requires IsHexDigit(c)
    ensures d < 16
  {
    if '0' <= c <= '9' then c as int - '0' as int
    else if 'a' <= c <= 'f' then c as int - 'a' as int + 10
    else c as int - 'A' as int + 10
  }

  /** The upper-case digit for a value below 16, as `%X` prints it. */
  function UpperDigit(d: nat): (c: char)
    requires d < 16
    ensures IsHexDigit(c) && IsUpperHexDigit(c) && DigitValue(c) == d
    ensures !('a' <= c <= 'z') && c != '+' && c != '-' && c != ' '
  {
    if d < 10 then ('0' as int + d) as char else ('A' as int + d - 10) as char
  }

  function Pow16(n: nat): (p: nat)
    ensures p >= 1
  {
    if n == 0 then 1 else 16 * Pow16(n - 1)
  }

  /** The positional value of a run of hexadecimal digits, most significant first. */
  function HexValue(ds: string): nat
    requires AllHexDigits(ds)
  {
    if |ds| == 0 then 0 else DigitValue(ds[0]) * Pow16(|ds| - 1) + HexValue(ds[1..])
  }

  lemma HexValueOfTwo(s: string)
    requires |s| == 2 && AllHexDigits(s)
    ensures HexValue(s) == DigitValue(s[0]) * 16 + DigitValue(s[1])
  {
    assert s[1..] == [s[1]] && s[1..][1..] == [];
    assert HexValue(s[1..]) == DigitValue(s[1]) * Pow16(0) + HexValue(s[1..][1..]);
    assert Pow16(1) == 16;
  }

  lemma HexValueOfFour(s: string)
    requires |s| == 4 && AllHexDigits(s)
    ensures HexValue(s) == DigitValue(s[0]) * 0x1000 + DigitValue(s[1]) * 0x100 + DigitValue(s[2]) * 0x10 + DigitValue(s[3])
  {
    assert s[1..] == [s[1], s[2], s[3]];
    assert s[1..][1..] == [s[2], s[3]];
    HexValueOfTwo(s[1..][1..]);
    assert Pow16(2) == 0x100 && Pow16(3) == 0x1000;
  }

  /** `String(format: "%02X", b)`: two upper-case digits, most significant first. */
  function Format02X(b: uint8): (s: string)
    ensures |s| == 2 && AllHexDigits(s)
    ensures forall i :: 0 <= i < |s| ==> IsUpperHexDigit(s[i])
    ensures HexValue(s) == b
  {
    var s := [UpperDigit(b / 16), UpperDigit(b % 16)];
    HexValueOfTwo(s);
    s
  }

  /** `String(format: "%04X", v)`: four upper-case digits, zero padded. */
  function Format04X(v: uint16): (s: string)
    ensures |s| == 4 && AllHexDigits(s)
    ensures forall i :: 0 <= i < |s| ==> IsUpperHexDigit(s[i])
    ensures HexValue(s) == v
  {
    var q1 := v / 16;
    var q2 := q1 / 16;
    var q3 := q2 / 16;
    DivideBy16(v);
    DivideBy16(q1);
    DivideBy16(q2);
    var s := [UpperDigit(q3), UpperDigit(q2 % 16), UpperDigit(q1 % 16), UpperDigit(v % 16)];
    HexValueOfFour(s);
    s
  }

  lemma DivideBy16(n: nat)
    ensures n == n / 16 * 16 + n % 16 && n % 16 < 16
    ensures n < 0x1_0000 ==> n / 16 < 0x1000
    ensures n < 0x1000 ==> n / 16 < 0x100
    ensures n < 0x100 ==> n / 16 < 0x10
  {
  }

  /** Swift's `UInt16(text, radix: 16)`: an optional leading `+` or `-`, then a
      non-empty run of hexadecimal digits; anything else gives `nil`. */
  function ParseUInt16Hex(text: string): (r: Option<uint16>)
  {
    if |text| == 0 then None
    else if text[0] == '-' then ParseDigits(text[1..], true)
    else if text[0] == '+' then ParseDigits(text[1..], false)
    else ParseDigits(text, false)
  }

  function ParseDigits(ds: string, negative: bool): Option<uint16>
  {
    if |ds| == 0 then None else Accumulate(ds, 0, negative)
  }

  /** The digit loop: each step multiplies by the radix and then adds (or,
      after a minus sign, subtracts) the digit, and gives up on the first
      step whose multiplication or addition leaves the range of `UInt16`. */
  function Accumulate(ds: string, acc: uint16, negative: bool): Option<uint16>
    decreases |ds|
  {
    if |ds| == 0 then Some(acc)
    else if !IsHexDigit(ds[0]) then None
    else
      var product := acc * 16;
      var next := if negative then product - DigitValue(ds[0]) else product + DigitValue(ds[0]);
      if product > 0xFFFF || next < 0 || next > 0xFFFF then None
      else Accumulate(ds[1..], next, negative)
  }

  /** What `UInt16(text, radix: 16)` means, stated on the whole text rather
      than step by step. */
  function ReferenceParse(text: string): Option<uint16>
  {
    var negative := |text| > 0 && text[0] == '-';
    var ds := if |text| > 0 && (text[0] == '-' || text[0] == '+') then text[1..] else text;
    if |ds| == 0 || !AllHexDigits(ds) then None
    else if negative then (if HexValue(ds) == 0 then Some(0) else None)
    else if HexValue(ds) <= 0xFFFF then Some(HexValue(ds)) else None
  }

  /** Any character that is not a digit makes the digit loop fail. */
  lemma {:induction false} AccumulateRejectsNonDigit(ds: string, acc: uint16, negative: bool)
    requires !AllHexDigits(ds)
    ensures Accumulate(ds, acc, negative) == None
    decreases |ds|
  {
    if IsHexDigit(ds[0]) {
      var product := acc * 16;
      var next := if negative then product - DigitValue(ds[0]) else product + DigitValue(ds[0]);
      if !(product > 0xFFFF || next < 0 || next > 0xFFFF) {
        var i :| 0 <= i < |ds| && !IsHexDigit(ds[i]);
        assert !IsHexDigit(ds[1..][i - 1]);
        AccumulateRejectsNonDigit(ds[1..], next, negative);
      }
    }
  }

  lemma ScaleMonotone(a: nat, b: nat, p: nat)
    requires a <= b
    ensures a * p <= b * p
  {
  }

  lemma ScaleSplit(acc: nat, d: nat, p: nat)
    ensures acc * (16 * p) + d * p == (acc * 16 + d) * p
  {
  }

  /** Without a sign, checking the range at every step is the same as checking
      the final value once. */
  lemma {:induction false} AccumulateUnsigned(ds: string, acc: uint16)
    requires AllHexDigits(ds)
    ensures var v := acc * Pow16(|ds|) + HexValue(ds);
            Accumulate(ds, acc, false) == if v <= 0xFFFF then Some(v) else None
    decreases |ds|
  {
    if |ds| > 0 {
      var p := Pow16(|ds| - 1);
      var d := DigitValue(ds[0]);
      var rest := HexValue(ds[1..]);
      var next := acc * 16 + d;
      assert Pow16(|ds|) == 16 * p;
      assert HexValue(ds) == d * p + rest;
      ScaleSplit(acc, d, p);
      assert acc * Pow16(|ds|) + HexValue(ds) == next * p + rest;
      ScaleMonotone(1, p, next);
      if next <= 0xFFFF {
        assert AllHexDigits(ds[1..]) by {
          forall i | 0 <= i < |ds[1..]| ensures IsHexDigit(ds[1..][i]) {
            assert ds[1..][i] == ds[i + 1];
          }
        }
        AccumulateUnsigned(ds[1..], next);
      }
    }
  }

  /** After a minus sign only zero digits can be absorbed. */
  lemma {:induction false} AccumulateNegative(ds: string)
    requires AllHexDigits(ds)
    ensures Accumulate(ds, 0, true) == if HexValue(ds) == 0 then Some(0) else None
    decreases |ds|
  {
    if |ds| > 0 {
      assert AllHexDigits(ds[1..]) by {
        forall i | 0 <= i < |ds[1..]| ensures IsHexDigit(ds[1..][i]) {
          assert ds[1..][i] == ds[i + 1];
        }
      }
      if DigitValue(ds[0]) == 0 {
        AccumulateNegative(ds[1..]);
      } else {
        ScaleMonotone(1, Pow16(|ds| - 1), DigitValue(ds[0]));
      }
    }
  }

  /** The step-by-step parser agrees with the whole-text reading on every input. */
  lemma ParseMatchesReference(text: string)
    ensures ParseUInt16Hex(text) == ReferenceParse(text)
  {
    var ds := if |text| > 0 && (text[0] == '-' || text[0] == '+') then text[1..] else text;
    if |ds| > 0 {
      if !AllHexDigits(ds) {
        AccumulateRejectsNonDigit(ds, 0, |text| > 0 && text[0] == '-');
      } else if |text| > 0 && text[0] == '-' {
        AccumulateNegative(ds);
      } else {
        AccumulateUnsigned(ds, 0);
      }
    }
  }

  /** Parsing what `%04X` printed gives the value back. */
  lemma ParseFormat04X(v: uint16)
    ensures ParseUInt16Hex(Format04X(v)) == Some(v)
  {
    ParseMatchesReference(Format04X(v));
  }

  /** Parsing what `%02X` printed gives the byte back. */
  lemma ParseFormat02X(b: uint8)
    ensures ParseUInt16Hex(Format02X(b)) == Some(b)
  {
    ParseMatchesReference(Format02X(b));
  }
}

=== FILE: manager.dfy ===
/** The observable manager object: the live scan tables, the name-keyed
    bookmarks, and the two pure helpers every row of the interface calls
    (proximity bucket and display name). CoreBluetooth callbacks become pure
    state-transition functions; the clock is a parameter. */
module BluetoothManager {
  import opened Wrappers
  import opened Clock
  import opened Hex
  import Text

  /** A discovered radio. The platform handle is opaque: the model keeps its
      identifier and its self-reported name. */
  datatype Peripheral = Peripheral(identifier: string, name: Option<string>)

  /** A value of the advertisement dictionary, by the Swift type it casts to.
      A value that is not `Data` also carries the name of its runtime type,
      as `type(of:)` reports it, and any other value its text as
      `String(describing:)` prints it; both are supplied by the platform. */
  datatype AdvValue =
    | DataValue(bytes: seq<uint8>)
    | StringValue(text: string, typeName: string)
    | OtherValue(description: string, typeName: string)

  type AdvData = map<string, AdvValue>

  /** `CBAdvertisementDataManufacturerDataKey` */
  const ManufacturerDataKey: string := "kCBAdvDataManufacturerData"
  /** `CBAdvertisementDataLocalNameKey` */
  const LocalNameKey: string := "kCBAdvDataLocalName"

  /** `CBManagerState` */
  datatype RadioState = Unknown | Resetting | Unsupported | Unauthorized | PoweredOff | PoweredOn

  /** The three published tables. `myDevices` maps a bookmarked name to the
      times it was seen while bookmarked. */
  datatype Manager = Manager(
    discoveredDevices: map<Peripheral, int>,
    discoveredAdvData: map<Peripheral, AdvData>,
    myDevices: map<string, seq<Time>>)

  const Initial: Manager := Manager(map[], map[], map[])

  // ---------------------------------------------------------------------------
  // Proximity

  /** The labels use an en dash (U+2013). */
  const NearLabel: string := "Near (~1\U{2013}2m)"
  const ModerateLabel: string := "Moderate (~2\U{2013}5m)"
  const FarLabel: string := "Far (>5m)"

  /** `estimateDistance(fromRSSI:)`: a closed bucket [-60, 0], a half-open
      bucket [-70, -60), and everything else, positive values included. */
  function EstimateDistance(rssi: int): (shown: string)
    ensures shown == NearLabel <==> -60 <= rssi <= 0
    ensures shown == ModerateLabel <==> -70 <= rssi < -60
    ensures shown == FarLabel <==> rssi < -70 || rssi > 0
  {
    if -60 <= rssi <= 0 then NearLabel
    else if -70 <= rssi < -60 then ModerateLabel
    else FarLabel
  }

  // ---------------------------------------------------------------------------
  // Display name

  /** `UInt16(bytes[1]) << 8 | UInt16(bytes[0])`: the Bluetooth SIG company
      identifier, little-endian in the first two bytes. */
  function ManufacturerCode(bytes: seq<uint8>): (code: uint16)
    requires |bytes| >= 2
    ensures code == bytes[0] as int + 0x100 * bytes[1] as int
  {
    var hi: uint8 := bytes[1];
    var lo: uint8 := bytes[0];
    JoinHighFirst(hi, lo);
    (((hi as bv16) << 8) | (lo as bv16)) as int
  }

  const AppleCompanyId: uint16 := 0x004C
  const SamsungCompanyId: uint16 := 0x0075
  const GoogleCompanyId: uint16 := 0x00E0

  /** The three company codes the name resolver recognises. */
  function VendorLabel(code: uint16): Option<string>
  {
    if code == AppleCompanyId then Some("Apple Device")
    else if code == SamsungCompanyId then Some("Samsung Device")
    else if code == GoogleCompanyId then Some("Google Device")
    else None
  }

  /** The vendor label decided by the manufacturer data, if it is `Data`,
      holds a company code, and the code is one of the three. */
  function ManufacturerLabel(adv: AdvData): Option<string>
  {
    if ManufacturerDataKey in adv && adv[ManufacturerDataKey].DataValue?
       && |adv[ManufacturerDataKey].bytes| >= 2
    then VendorLabel(ManufacturerCode(adv[ManufacturerDataKey].bytes))
    else None
  }

  /** The advertised local name, if it is a non-empty `String`. */
  function AdvertisedLocalName(adv: AdvData): Option<string>
  {
    if LocalNameKey in adv && adv[LocalNameKey].StringValue? && |adv[LocalNameKey].text| > 0
    then Some(adv[LocalNameKey].text)
    else None
  }

  const UnknownDeviceLabel: string := "Unknown Device"
  const AirTagLabel: string := "Apple AirTag"

  /** The last rule: the peripheral's own name. */
  function RawNameLabel(rawName: Option<string>): (shown: string)
    ensures shown != []
  {
    if rawName.None? || |rawName.value| == 0 then UnknownDeviceLabel
    else if Text.Contains(Text.Lowercased(rawName.value), "airtag") then AirTagLabel
    else rawName.value
  }

  /** `readableName(_:adv:)`: manufacturer code, then advertised local name,
      then the raw name; never empty. */
  function ReadableName(rawName: Option<string>, adv: Option<AdvData>): (name: string)
    ensures name != []
  {
    if adv.Some? && ManufacturerLabel(adv.value).Some? then ManufacturerLabel(adv.value).value
    else if adv.Some? && AdvertisedLocalName(adv.value).Some? then AdvertisedLocalName(adv.value).value
    else RawNameLabel(rawName)
  }

  /** A recognised company code decides the name, whatever the local and raw names. */
  lemma VendorCodeWins(rawName: Option<string>, adv: AdvData, bytes: seq<uint8>)
    requires ManufacturerDataKey in adv && adv[ManufacturerDataKey] == DataValue(bytes)
    requires |bytes| >= 2
    ensures bytes[0] == 0x4C && bytes[1] == 0 ==> ReadableName(rawName, Some(adv)) == "Apple Device"
    ensures bytes[0] == 0x75 && bytes[1] == 0 ==> ReadableName(rawName, Some(adv)) == "Samsung Device"
    ensures bytes[0] == 0xE0 && bytes[1] == 0 ==> ReadableName(rawName, Some(adv)) == "Google Device"
  {
  }

  /** With no deciding manufacturer code, a non-empty local name is returned
      verbatim and the raw name is ignored. */
  lemma LocalNameBeatsRawName(rawName: Option<string>, adv: AdvData, localName: string)
    requires ManufacturerLabel(adv).None?
    requires LocalNameKey in adv && adv[LocalNameKey].StringValue?
    requires adv[LocalNameKey].text == localName && localName != []
    ensures ReadableName(rawName, Some(adv)) == localName
  {
  }

  /** Short manufacturer data, or an unrecognised code, falls through. */
  lemma UnrecognisedCodeFallsThrough(adv: AdvData)
    requires ManufacturerDataKey in adv && adv[ManufacturerDataKey].DataValue?
    requires var bytes := adv[ManufacturerDataKey].bytes;
             |bytes| < 2 || bytes[1] != 0 || (bytes[0] != 0x4C && bytes[0] != 0x75 && bytes[0] != 0xE0)
    ensures ManufacturerLabel(adv) == None
  {
  }

  /** Advertisement data that decides nothing leaves the raw-name rule in charge. */
  lemma RawNameRules(rawName: Option<string>, adv: Option<AdvData>)
    requires adv.Some? ==> ManufacturerLabel(adv.value).None? && AdvertisedLocalName(adv.value).None?
    ensures rawName.None? || rawName == Some([]) ==> ReadableName(rawName, adv) == "Unknown Device"
    ensures rawName.Some? && rawName.value != [] && Text.Contains(Text.Lowercased(rawName.value), "airtag")
            ==> ReadableName(rawName, adv) == "Apple AirTag"
    ensures rawName.Some? && !Text.Contains(Text.Lowercased(rawName.value), "airtag") && rawName.value != []
            ==> ReadableName(rawName, adv) == rawName.value
  {
  }

  // ---------------------------------------------------------------------------
  // State transitions

  /** `centralManager(_:didDiscover:advertisementData:rssi:)`: upsert the
      signal strength and advertisement, and stamp a bookmarked name. */
  function Discover(m: Manager, p: Peripheral, adv: AdvData, rssi: int, now: Time): (r: Manager)
    ensures r.discoveredDevices.Keys == m.discoveredDevices.Keys + {p} && r.discoveredDevices[p] == rssi
    ensures forall q :: q in m.discoveredDevices && q != p ==> r.discoveredDevices[q] == m.discoveredDevices[q]
    ensures r.discoveredAdvData.Keys == m.discoveredAdvData.Keys + {p} && r.discoveredAdvData[p] == adv
    ensures forall q :: q in m.discoveredAdvData && q != p ==> r.discoveredAdvData[q] == m.discoveredAdvData[q]
    ensures r.myDevices.Keys == m.myDevices.Keys
    ensures forall n :: n in m.myDevices && p.name != Some(n) ==> r.myDevices[n] == m.myDevices[n]
    ensures p.name.Some? && p.name.value in m.myDevices ==>
              r.myDevices[p.name.value] == m.myDevices[p.name.value] + [now]
  {
    var myDevices :=
      if p.name.Some? && p.name.value in m.myDevices
      then m.myDevices[p.name.value := m.myDevices[p.name.value] + [now]]
      else m.myDevices;
    Manager(m.discoveredDevices[p := rssi], m.discoveredAdvData[p := adv], myDevices)
  }

  /** What `centralManagerDidUpdateState` does: the next state, and whether a
      scan is requested. */
  datatype StateReaction = StateReaction(next: Manager, startsScan: bool)

  /** Powered on starts a scan and changes nothing; any other state empties
      the live signal table only. */
  function DidUpdateState(m: Manager, state: RadioState): (r: StateReaction)
    ensures r.startsScan <==> state == PoweredOn
    ensures state == PoweredOn ==> r.next == m
    ensures state != PoweredOn ==> r.next.discoveredDevices == map[]
    ensures r.next.discoveredAdvData == m.discoveredAdvData && r.next.myDevices == m.myDevices
  {
    if state == PoweredOn then StateReaction(m, true)
    else StateReaction(m.(discoveredDevices := map[]), false)
  }

  /** `addMyDevice`: start an empty history for a new name; keep an existing one. */
  function AddMyDevice(m: Manager, name: string): (r: Manager)
    ensures r.myDevices.Keys == m.myDevices.Keys + {name}
    ensures name in m.myDevices ==> r == m
    ensures name !in m.myDevices ==> r.myDevices[name] == []
    ensures forall n :: n in m.myDevices ==> r.myDevices[n] == m.myDevices[n]
    ensures r.discoveredDevices == m.discoveredDevices && r.discoveredAdvData == m.discoveredAdvData
  {
    if name !in m.myDevices then m.(myDevices := m.myDevices[name := []]) else m
  }

  /** `removeMyDevice`: drop that name and nothing else. */
  function RemoveMyDevice(m: Manager, name: string): (r: Manager)
    ensures r.myDevices.Keys == m.myDevices.Keys - {name}
    ensures forall n :: n in r.myDevices ==> r.myDevices[n] == m.myDevices[n]
    ensures name !in m.myDevices ==> r == m
    ensures r.discoveredDevices == m.discoveredDevices && r.discoveredAdvData == m.discoveredAdvData
  {
    m.(myDevices := m.myDevices - {name})
  }

  lemma AddMyDeviceIdempotent(m: Manager, name: string)
    ensures AddMyDevice(AddMyDevice(m, name), name) == AddMyDevice(m, name)
  {
  }

  /** Adding then removing a new name restores the bookmarks. */
  lemma AddThenRemove(m: Manager, name: string)
    requires name !in m.myDevices
    ensures RemoveMyDevice(AddMyDevice(m, name), name) == m
  {
    assert RemoveMyDevice(AddMyDevice(m, name), name).myDevices == m.myDevices;
  }

  // ---------------------------------------------------------------------------
  // Event traces

  datatype Event =
    | Discovered(peripheral: Peripheral, adv: AdvData, rssi: int, at: Time)
    | StateChanged(state: RadioState)
    | Bookmarked(name: string)
    | Unbookmarked(name: string)

  function Step(m: Manager, e: Event): Manager
  {
    match e
    case Discovered(p, adv, rssi, at) => Discover(m, p, adv, rssi, at)
    case StateChanged(state) => DidUpdateState(m, state).next
    case Bookmarked(name) => AddMyDevice(m, name)
    case Unbookmarked(name) => RemoveMyDevice(m, name)
  }

  /** The events applied one after another, in delivery order. */
  function Run(m: Manager, events: seq<Event>): Manager
    decreases |events|
  {
    if |events| == 0 then m else Run(Step(m, events[0]), events[1..])
  }

  /** Every peripheral with a signal strength also has an advertisement to show. */
  predicate Consistent(m: Manager)
  {
    m.discoveredDevices.Keys <= m.discoveredAdvData.Keys
  }

  lemma {:induction false} RunKeepsConsistent(m: Manager, events: seq<Event>)
    requires Consistent(m)
    ensures Consistent(Run(m, events))
    decreases |events|
  {
    if |events| > 0 {
      RunKeepsConsistent(Step(m, events[0]), events[1..]);
    }
  }

  /** Only bookmark and unbookmark events change which names are bookmarked. */
  lemma {:induction false} OnlyBookmarkingChangesNames(m: Manager, events: seq<Event>)
    requires forall i :: 0 <= i < |events| ==> !events[i].Bookmarked? && !events[i].Unbookmarked?
    ensures Run(m, events).myDevices.Keys == m.myDevices.Keys
    decreases |events|
  {
    if |events| > 0 {
      OnlyBookmarkingChangesNames(Step(m, events[0]), events[1..]);
    }
  }

  /** Without unbookmarking, a name's sighting history is only ever extended. */
  lemma {:induction false} HistoriesOnlyGrow(m: Manager, events: seq<Event>)
    requires forall i :: 0 <= i < |events| ==> !events[i].Unbookmarked?
    ensures var r := Run(m, events);
            forall n :: n in m.myDevices ==> n in r.myDevices && m.myDevices[n] <= r.myDevices[n]
    decreases |events|
  {
    if |events| > 0 {
      var m' := Step(m, events[0]);
      HistoriesOnlyGrow(m', events[1..]);
    }
  }
}

=== FILE: manufacturer.dfy ===
/** The vendor table: company identifiers from a bundled JSON object whose
    keys are hexadecimal strings. Built once; afterwards only read. */
module ManufacturerDatabase {
  import opened Wrappers
  import opened Hex

  type Companies = map<uint16, string>

  /** An entry of `companies` that some source key justifies: the key parses
      to `id` and carries exactly the stored vendor string. */
  predicate Justified(source: map<string, string>, companies: Companies, id: uint16)
    requires id in companies
  {
    exists key :: key in source && ParseUInt16Hex(key) == Some(id) && source[key] == companies[id]
  }

  /** The lazy initialiser of `companies`. `source` is the decoded resource:
      `None` when the file is missing, unreadable, or not a string-to-string
      JSON object. Keys are visited in no particular order, so when two keys
      parse to the same identifier either vendor string may remain. */
  method BuildCompanies(source: Option<map<string, string>>) returns (companies: Companies)
    ensures source.None? ==> companies == map[]
    ensures source.Some? ==> forall id :: id in companies ==> Justified(source.value, companies, id)
    ensures source.Some? ==> forall key :: key in source.value && ParseUInt16Hex(key).Some?
                                ==> ParseUInt16Hex(key).value in companies
    ensures source.Some? ==> |companies| <= |source.value|
  {
    if source.None? {
      return map[];
    }
    var dict := source.value;
    companies := map[];
    var remaining := dict.Keys;
    while remaining != {}
      invariant remaining <= dict.Keys
      invariant forall id :: id in companies ==> Justified(dict, companies, id)
      invariant forall key :: key in dict && key !in remaining && ParseUInt16Hex(key).Some?
                  ==> ParseUInt16Hex(key).value in companies
      invariant |companies| + |remaining| <= |dict|
      decreases remaining
    {
      var key :| key in remaining;
      var parsed := ParseUInt16Hex(key);
      if parsed.Some? {
        var before := companies;
        companies := companies[parsed.value := dict[key]];
        forall id | id in companies
          ensures Justified(dict, companies, id)
        {
          if id != parsed.value {
            assert Justified(dict, before, id);
          }
        }
      }
      remaining := remaining - {key};
    }
  }

  /** `name(for:)`: the stored vendor string, or `nil` for an unknown identifier. */
  function Name(companies: Companies, id: uint16): (vendor: Option<string>)
    ensures vendor.Some? <==> id in companies
    ensures vendor.Some? ==> vendor.value == companies[id]
  {
    if id in companies then Some(companies[id]) else None
  }

  /** A key written the way the assigned-numbers file writes it, four
      upper-case digits, parses to the identifier it spells, so
      `BuildCompanies` keeps it under that identifier. */
  lemma CanonicalKeyParses(id: uint16)
    ensures ParseUInt16Hex(Format04X(id)) == Some(id)
  {
    ParseFormat04X(id);
  }
}

=== FILE: saved_device.dfy ===
/** The persisted bookmark record. */
module SavedDevices {
  import opened Wrappers
  import opened Clock

  /** `id` is the peripheral's UUID string and `addedDate` never changes
      after construction. */
  datatype SavedDevice = SavedDevice(id: string, name: string, addedDate: Time, lastSeenDate: Option<Time>)

  /** `init(id:name:)`, with the current time passed in. */
  function NewSavedDevice(id: string, name: string, now: Time): (d: SavedDevice)
    ensures d.id == id && d.name == name
    ensures d.addedDate == now
    ensures d.lastSeenDate.None?
  {
    SavedDevice(id, name, now, None)
  }

  /** `updateLastSeen()`, with the current time passed in. */
  function UpdateLastSeen(d: SavedDevice, now: Time): (d': SavedDevice)
    ensures d'.lastSeenDate == Some(now)
    ensures d'.id == d.id && d'.name == d.name && d'.addedDate == d.addedDate
  {
    d.(lastSeenDate := Some(now))
  }

  /** A record after a series of `updateLastSeen()` calls at the given times. */
  function UpdatedAt(d: SavedDevice, times: seq<Time>): (d': SavedDevice)
    ensures d'.id == d.id && d'.name == d.name && d'.addedDate == d.addedDate
    ensures |times| == 0 ==> d' == d
    ensures |times| > 0 ==> d'.lastSeenDate == Some(times[|times| - 1])
    decreases |times|
  {
    if |times| == 0 then d else UpdatedAt(UpdateLastSeen(d, times[0]), times[1..])
  }
}

=== FILE: scanner.dfy ===
/** The scanner screen's logic: the signal-ordered snapshot of the live
    table, the refresh throttle, the bookmarked/other split, and the
    "Add to My Devices" action. */
module Scanner {
  import opened Wrappers
  import opened Clock
  import BM = BluetoothManager

  /** A row of the list: a peripheral and its signal strength. */
  type Entry = (BM.Peripheral, int)

  /** `updateInterval`: ten seconds. */
  const UpdateIntervalMs: int := 10 * MillisPerSecond

  /** The view's own state: the ordered snapshot and when it was taken. */
  datatype ScannerState = ScannerState(sortedDevices: seq<Entry>, lastUpdate: Time)

  predicate NonIncreasing(s: seq<Entry>)
  {
    forall i, j :: 0 <= i < j < |s| ==> s[i].1 >= s[j].1
  }

  /** `s` lists each entry of `table` exactly once, and nothing else. */
  predicate ListsExactly(s: seq<Entry>, table: map<BM.Peripheral, int>)
  {
    && |s| == |table|
    && (forall i :: 0 <= i < |s| ==> s[i].0 in table && table[s[i].0] == s[i].1)
    && (forall p :: p in table ==> (p, table[p]) in s)
  }

  /** The entries of a dictionary, in whatever order iteration yields them. */
  method Entries(table: map<BM.Peripheral, int>) returns (s: seq<Entry>)
    ensures ListsExactly(s, table)
  {
    s := [];
    var remaining := table.Keys;
    while remaining != {}
      invariant remaining <= table.Keys
      invariant |s| + |remaining| == |table|
      invariant forall i :: 0 <= i < |s| ==> s[i].0 in table && s[i].0 !in remaining && table[s[i].0] == s[i].1
      invariant forall p :: p in table && p !in remaining ==> (p, table[p]) in s
      decreases remaining
    {
      var p :| p in remaining;
      s := s + [(p, table[p])];
      remaining := remaining - {p};
    }
  }

  /** Places `e` before the first entry whose signal is not stronger. */
  function Insert(e: Entry, s: seq<Entry>): (r: seq<Entry>)
    requires NonIncreasing(s)
    ensures NonIncreasing(r)
    ensures multiset(r) == multiset(s) + multiset{e}
  {
    if |s| == 0 then [e]
    else if e.1 >= s[0].1 then [e] + s
    else
      var rest := Insert(e, s[1..]);
      assert s == [s[0]] + s[1..];
      InsertBounded(e, s[1..], rest, s[0].1);
      [s[0]] + rest
  }

  /** Every entry of `rest` is bounded by `top` when `e` and all of `s` are. */
  lemma InsertBounded(e: Entry, s: seq<Entry>, rest: seq<Entry>, top: int)
    requires multiset(rest) == multiset(s) + multiset{e}
    requires e.1 <= top && forall i :: 0 <= i < |s| ==> s[i].1 <= top
    ensures forall i :: 0 <= i < |rest| ==> rest[i].1 <= top
  {
    forall i | 0 <= i < |rest|
      ensures rest[i].1 <= top
    {
      assert rest[i] in multiset(rest);
      if rest[i] != e {
        assert rest[i] in multiset(s);
      }
    }
  }

  /** `sorted { $0.1.intValue > $1.1.intValue }`: strongest signal first;
      the order of equal signals is not specified. */
  function SortByRssi(s: seq<Entry>): (r: seq<Entry>)
    ensures NonIncreasing(r)
    ensures multiset(r) == multiset(s)
  {
    if |s| == 0 then []
    else
      assert s == [s[0]] + s[1..];
      Insert(s[0], SortByRssi(s[1..]))
  }

  /** Sorting keeps exactly the same entries. */
  lemma SortKeepsEntries(s: seq<Entry>, table: map<BM.Peripheral, int>)
    requires ListsExactly(s, table)
    ensures ListsExactly(SortByRssi(s), table)
  {
    var r := SortByRssi(s);
    assert |r| == |multiset(r)| == |multiset(s)| == |s|;
    forall i | 0 <= i < |r|
      ensures r[i].0 in table && table[r[i].0] == r[i].1
    {
      assert r[i] in multiset(s);
    }
    forall p | p in table
      ensures (p, table[p]) in r
    {
      assert (p, table[p]) in multiset(r);
    }
  }

  /** `updateSortedDevices()`: snapshot the live table, strongest first, and
      remember when. */
  method UpdateSortedDevices(table: map<BM.Peripheral, int>, now: Time) returns (st: ScannerState)
    ensures ListsExactly(st.sortedDevices, table)
    ensures NonIncreasing(st.sortedDevices)
    ensures st.lastUpdate == now
  {
    var all := Entries(table);
    SortKeepsEntries(all, table);
    st := ScannerState(SortByRssi(all), now);
  }

  /** The throttle test: more than `updateInterval` since the snapshot at `last`. */
  predicate IntervalElapsed(last: Time, now: Time)
  {
    now - last > UpdateIntervalMs
  }

  /** The throttle applied to the current snapshot. */
  predicate RefreshDue(st: ScannerState, now: Time)
  {
    IntervalElapsed(st.lastUpdate, now)
  }

  /** `.onReceive(btManager.$discoveredDevices)`: re-sort only when the
      throttle allows, otherwise keep the old snapshot untouched. The
      publisher fires before the write lands (`@Published` publishes from
      `willSet`) and the handler re-reads the manager's table, so
      `tableBeforeWrite` is the table as it was before the change that
      triggered the refresh. */
  method OnDevicesChanged(st: ScannerState, tableBeforeWrite: map<BM.Peripheral, int>, now: Time)
    returns (st': ScannerState)
    ensures !RefreshDue(st, now) ==> st' == st
    ensures st'.lastUpdate == NextLastUpdate(st.lastUpdate, now)
    ensures RefreshDue(st, now) ==> st'.lastUpdate == now && ListsExactly(st'.sortedDevices, tableBeforeWrite)
                                    && NonIncreasing(st'.sortedDevices)
  {
    if RefreshDue(st, now) {
      st' := UpdateSortedDevices(tableBeforeWrite, now);
    } else {
      st' := st;
    }
  }

  /** The `lastUpdate` a change at `now` leaves behind. */
  function NextLastUpdate(last: Time, now: Time): Time
  {
    if IntervalElapsed(last, now) then now else last
  }

  /** `lastUpdate` after a run of changes, starting from a snapshot at `last`. */
  function LastUpdateAfter(last: Time, changes: seq<Time>): Time
    decreases |changes|
  {
    if changes == [] then last else LastUpdateAfter(NextLastUpdate(last, changes[0]), changes[1..])
  }

  /** The instants, in order, at which a run of changes re-sorts the list. */
  function RefreshTimes(last: Time, changes: seq<Time>): seq<Time>
    decreases |changes|
  {
    if changes == [] then []
    else if IntervalElapsed(last, changes[0]) then [changes[0]] + RefreshTimes(changes[0], changes[1..])
    else RefreshTimes(last, changes[1..])
  }

  /** Over any run of changes, every re-sort happens at one of the changes,
      the first comes more than ten seconds after the starting snapshot,
      successive re-sorts are more than ten seconds apart, and the final
      `lastUpdate` is the time of the last re-sort (or the start if none). */
  lemma {:induction false} ThrottleSpacing(last: Time, changes: seq<Time>)
    ensures var r := RefreshTimes(last, changes);
            && (forall i :: 0 <= i < |r| ==> r[i] in changes)
            && (|r| > 0 ==> r[0] - last > UpdateIntervalMs)
            && (forall i :: 0 <= i < |r| - 1 ==> r[i + 1] - r[i] > UpdateIntervalMs)
            && LastUpdateAfter(last, changes) == (if |r| == 0 then last else r[|r| - 1])
    decreases |changes|
  {
    if changes != [] {
      var c := changes[0];
      if IntervalElapsed(last, c) {
        ThrottleSpacing(c, changes[1..]);
        var rest := RefreshTimes(c, changes[1..]);
        assert RefreshTimes(last, changes) == [c] + rest;
        assert forall i :: 0 <= i < |rest| ==> rest[i] in changes by {
          forall i | 0 <= i < |rest| ensures rest[i] in changes {
            assert rest[i] in changes[1..];
          }
        }
      } else {
        ThrottleSpacing(last, changes[1..]);
        var r := RefreshTimes(last, changes[1..]);
        forall i | 0 <= i < |r| ensures r[i] in changes {
          assert r[i] in changes[1..];
        }
      }
    }
  }

  /** Changes that all come within ten seconds of the snapshot never re-sort
      and leave `lastUpdate` where it was. */
  lemma {:induction false} QuietWithinWindow(last: Time, changes: seq<Time>)
    requires forall k :: 0 <= k < |changes| ==> changes[k] <= last + UpdateIntervalMs
    ensures RefreshTimes(last, changes) == []
    ensures LastUpdateAfter(last, changes) == last
    decreases |changes|
  {
    if changes != [] {
      assert changes[0] <= last + UpdateIntervalMs;
      QuietWithinWindow(last, changes[1..]);
    }
  }

  /** A refresh triggered by the discovery of a new peripheral does not show
      it yet: the snapshot lists the table before the write, which lacks it,
      while the manager's table afterwards holds it. */
  lemma NewestSightingNotYetShown(s: seq<Entry>, m: BM.Manager, p: BM.Peripheral,
                                  adv: BM.AdvData, rssi: int, now: Time)
    requires ListsExactly(s, m.discoveredDevices) && p !in m.discoveredDevices
    ensures forall i :: 0 <= i < |s| ==> s[i].0 != p
    ensures p in BM.Discover(m, p, adv, rssi, now).discoveredDevices
    ensures |s| + 1 == |BM.Discover(m, p, adv, rssi, now).discoveredDevices|
  {
  }

  // ---------------------------------------------------------------------------
  // Sections

  /** A peripheral whose name is bookmarked. */
  predicate IsMine(p: BM.Peripheral, myDevices: map<string, seq<Time>>)
  {
    p.name.Some? && p.name.value in myDevices
  }

  /** `myFiltered` */
  function MyFiltered(s: seq<Entry>, myDevices: map<string, seq<Time>>): (r: seq<Entry>)
    ensures forall e :: e in r <==> e in s && IsMine(e.0, myDevices)
    ensures |r| <= |s|
  {
    if |s| == 0 then []
    else if IsMine(s[0].0, myDevices) then [s[0]] + MyFiltered(s[1..], myDevices)
    else MyFiltered(s[1..], myDevices)
  }

  /** `otherFiltered`: unnamed peripherals and names that are not bookmarked. */
  function OtherFiltered(s: seq<Entry>, myDevices: map<string, seq<Time>>): (r: seq<Entry>)
    ensures forall e :: e in r <==> e in s && !IsMine(e.0, myDevices)
    ensures |r| <= |s|
  {
    if |s| == 0 then []
    else if !IsMine(s[0].0, myDevices) then [s[0]] + OtherFiltered(s[1..], myDevices)
    else OtherFiltered(s[1..], myDevices)
  }

  /** The "My Devices Nearby" section, present only when something is bookmarked. */
  function MySection(s: seq<Entry>, myDevices: map<string, seq<Time>>): (section: Option<seq<Entry>>)
    ensures section.Some? <==> |myDevices| > 0
  {
    if |myDevices| > 0 then Some(MyFiltered(s, myDevices)) else None
  }

  /** Every row lands in exactly one of the two sections, with its multiplicity. */
  lemma {:induction false} FiltersPartition(s: seq<Entry>, myDevices: map<string, seq<Time>>)
    ensures multiset(MyFiltered(s, myDevices)) + multiset(OtherFiltered(s, myDevices)) == multiset(s)
  {
    if |s| > 0 {
      FiltersPartition(s[1..], myDevices);
      assert s == [s[0]] + s[1..];
    }
  }

  /** `a` is `b` with some entries left out, the rest in their original order. */
  predicate IsSubsequence(a: seq<Entry>, b: seq<Entry>)
    decreases |b|
  {
    |a| == 0
    || (|b| > 0 && ((a[0] == b[0] && IsSubsequence(a[1..], b[1..])) || IsSubsequence(a, b[1..])))
  }

  lemma {:induction false} FiltersKeepOrder(s: seq<Entry>, myDevices: map<string, seq<Time>>)
    ensures IsSubsequence(MyFiltered(s, myDevices), s)
    ensures IsSubsequence(OtherFiltered(s, myDevices), s)
  {
    if |s| > 0 {
      FiltersKeepOrder(s[1..], myDevices);
      var mine := MyFiltered(s[1..], myDevices);
      var other := OtherFiltered(s[1..], myDevices);
      if IsMine(s[0].0, myDevices) {
        assert ([s[0]] + mine)[1..] == mine;
      } else {
        assert ([s[0]] + other)[1..] == other;
      }
    }
  }

  lemma {:induction false} SubsequenceMembers(a: seq<Entry>, b: seq<Entry>)
    requires IsSubsequence(a, b)
    ensures forall x :: x in a ==> x in b
    decreases |b|
  {
    if |a| > 0 {
      assert b == [b[0]] + b[1..];
      if a[0] == b[0] && IsSubsequence(a[1..], b[1..]) {
        SubsequenceMembers(a[1..], b[1..]);
        assert a == [a[0]] + a[1..];
      } else {
        SubsequenceMembers(a, b[1..]);
      }
    }
  }

  /** Any subsequence of an ordered list is ordered. */
  lemma {:induction false} SubsequenceKeepsOrder(a: seq<Entry>, b: seq<Entry>)
    requires IsSubsequence(a, b) && NonIncreasing(b)
    ensures NonIncreasing(a)
    decreases |b|
  {
    if |a| > 0 {
      if a[0] == b[0] && IsSubsequence(a[1..], b[1..]) {
        SubsequenceKeepsOrder(a[1..], b[1..]);
        SubsequenceMembers(a[1..], b[1..]);
        forall j | 0 < j < |a|
          ensures a[0].1 >= a[j].1
        {
          assert a[j] == a[1..][j - 1];
          assert a[j] in b[1..];
        }
      } else {
        SubsequenceKeepsOrder(a, b[1..]);
      }
    }
  }

  /** Both sections list their rows strongest signal first. */
  lemma FiltersStaySorted(s: seq<Entry>, myDevices: map<string, seq<Time>>)
    requires NonIncreasing(s)
    ensures NonIncreasing(MyFiltered(s, myDevices))
    ensures NonIncreasing(OtherFiltered(s, myDevices))
  {
    FiltersKeepOrder(s, myDevices);
    SubsequenceKeepsOrder(MyFiltered(s, myDevices), s);
    SubsequenceKeepsOrder(OtherFiltered(s, myDevices), s);
  }

  /** With nothing bookmarked there is no "My Devices Nearby" section and
      every row is listed under the other devices. */
  lemma {:induction false} NothingBookmarked(s: seq<Entry>, myDevices: map<string, seq<Time>>)
    requires |myDevices| == 0
    ensures MySection(s, myDevices) == None
    ensures OtherFiltered(s, myDevices) == s
  {
    if |s| > 0 {
      NothingBookmarked(s[1..], myDevices);
      assert s == [s[0]] + s[1..];
    }
  }

  /** "Add to My Devices": bookmark the peripheral's name; an unnamed
      peripheral changes nothing. */
  function AddToMyDevices(m: BM.Manager, p: BM.Peripheral): (r: BM.Manager)
    ensures p.name.None? ==> r == m
    ensures p.name.Some? ==> IsMine(p, r.myDevices)
    ensures r.myDevices.Keys <= m.myDevices.Keys + (if p.name.Some? then {p.name.value} else {})
    ensures forall n :: n in m.myDevices ==> n in r.myDevices && r.myDevices[n] == m.myDevices[n]
    ensures r.discoveredDevices == m.discoveredDevices && r.discoveredAdvData == m.discoveredAdvData
  {
    if p.name.Some? then BM.AddMyDevice(m, p.name.value) else m
  }
}

=== FILE: text.dfy ===
/** Character-level string helpers: ASCII case folding, substring search and
    the lexicographic order used to sort dictionary keys. */
module Text {

  /** ASCII lower-casing of one character; every other character is kept. */
  function LowerChar(c: char): (l: char)
  {
    if 'A' <= c <= 'Z' then (c as int + 32) as char else c
  }

  /** `String.lowercased()`, restricted to ASCII case folding. */
  function Lowercased(s: string): (r: string)
    ensures |r| == |s|
    ensures forall i :: 0 <= i < |s| ==> r[i] == LowerChar(s[i])
    ensures forall i :: 0 <= i < |r| ==> !('A' <= r[i] <= 'Z')
  {
    if |s| == 0 then [] else [LowerChar(s[0])] + Lowercased(s[1..])
  }

  /** `pat` occurs in `s` starting at position `i`. */
  predicate OccursAt(s: string, pat: string, i: nat)
  {
    i + |pat| <= |s| && s[i..i + |pat|] == pat
  }

  /** Substring search, scanning from the front (`String.contains`). */
  predicate Contains(s: string, pat: string)
    decreases |s|
  {
    |pat| <= |s| && (s[..|pat|] == pat || (|s| > 0 && Contains(s[1..], pat)))
  }

  /** The scan finds `pat` exactly when it occurs at some position of `s`. */
  lemma {:induction false} ContainsIff(s: string, pat: string)
    ensures Contains(s, pat) <==> exists i: nat :: OccursAt(s, pat, i)
    decreases |s|
  {
    if |pat| > |s| {
      forall i: nat ensures !OccursAt(s, pat, i) { }
    } else if s[..|pat|] == pat {
      assert OccursAt(s, pat, 0);
    } else {
      assert |s| > 0;
      ContainsIff(s[1..], pat);
      if Contains(s[1..], pat) {
        var i: nat :| OccursAt(s[1..], pat, i);
        assert s[1..][i..i + |pat|] == s[i + 1..i + 1 + |pat|];
        assert OccursAt(s, pat, i + 1);
      } else {
        forall i: nat | OccursAt(s, pat, i)
          ensures false
        {
          assert i != 0 by {
            assert s[..|pat|] != pat;
          }
          assert s[1..][i - 1..i - 1 + |pat|] == s[i..i + |pat|];
          assert OccursAt(s[1..], pat, i - 1);
        }
      }
    }
  }

  /** Strict lexicographic order on strings, comparing characters by code
      point; a proper prefix comes first. */
  predicate LexLess(a: string, b: string)
    decreases |a|
  {
    if |a| == 0 then |b| > 0
    else if |b| == 0 then false
    else if a[0] != b[0] then a[0] < b[0]
    else LexLess(a[1..], b[1..])
  }

  lemma {:induction false} LexLessIrreflexive(a: string)
    ensures !LexLess(a, a)
    decreases |a|
  {
    if |a| > 0 {
      LexLessIrreflexive(a[1..]);
    }
  }

  lemma {:induction false} LexLessTransitive(a: string, b: string, c: string)
    requires LexLess(a, b) && LexLess(b, c)
    ensures LexLess(a, c)
    decreases |a|
  {
    if |a| > 0 && a[0] == b[0] && b[0] == c[0] {
      LexLessTransitive(a[1..], b[1..], c[1..]);
    }
  }

  lemma {:induction false} LexLessTotal(a: string, b: string)
    requires a != b
    ensures LexLess(a, b) || LexLess(b, a)
    decreases |a|
  {
    if |a| > 0 && |b| > 0 && a[0] == b[0] {
      assert a == [a[0]] + a[1..] && b == [b[0]] + b[1..];
      LexLessTotal(a[1..], b[1..]);
    }
  }
}

=== FILE: wrappers.dfy ===
/** The optional-value wrapper that stands in for Swift's `T?`. */
module Wrappers {

  datatype Option<+T> = None | Some(value: T)
}
